=== FILE: README.md ===
# Launchpad step sequencer and MIDI codecs, in Dafny

This project models the core of a Go library for Novation Launchpad and Launch Control controllers.

**The sequencer** (sequencer.go) has 64 tracks of 64 steps, played on an 8x8 pad grid.
- In Pattern mode the grid shows the steps of the current track. A pad press toggles a step.
- In Mutes mode the grid shows the mute flag of each track. A pad press toggles a mute.
- The top row (y = 8) picks the column of the current track, and the right column (x = 8) picks its row.
- An external clock sends pulses. Each pulse may advance the play cursor, move the position light and call the registered triggers with the tracks that fire at the new step.

The sequencer is modelled as a pure state machine: `Sequencer.Handle` takes the state and one event (a hit, a failed hit, a pulse or a mode change). It returns the new state, the effects it emitted in order (lights, display resets, deliveries to triggers) and the fault, if any, that ends the main loop. The display and the triggers are abstract sinks:
- display writes are recorded as effects;
- each trigger is a function from a step and its firing list to "accepted".

A Go runtime panic is the fault `IndexOutOfRange`. Examples are indexing the pattern with a track past 63, or with a step past 63.

**The device codecs**, each as pure functions on integers and bytes:
- the original Launchpad's note/controller encoding and its `Read` decoder (launchpad.go);
- the Mini MK3's LED index, its two lighting SysEx messages and its decoder (mk3/launchpad.go);
- the MK2's LED index and decoder (mk2/launchpad.go);
- the scrolling-text SysEx builder (scrolling_text.go);
- the Launch Control XL's control table and its "light all" SysEx (launchctl/xl/launchctl.go).

Go's integer behaviour is written out in `GoValues`:
- `%` and `/` truncate toward zero (`GoRem`, `GoDiv`);
- a conversion to `byte` keeps the low eight bits (`ToByte`);
- the pulse count is an `int32`.

## Behaviour worth knowing

These follow from the code as written, and the model keeps each of them.
- `NewSequencer` never sets `stepSkip`, so it starts at 0. A fresh sequencer counts pulses directly until `SetResolution` is called.
- A top-row or right-column press resets and redraws the whole pad even when the selected track is already current. In that case `setCurrentTrackFrom` changes nothing (`ReselectRedraws`).
- `toggle` stores 1 for an "on" step. Two toggles restore a step only when its value is 0 or 1; any other value becomes 1 (`ToggleTwiceNormalises`).
- Mutes only affect what Mutes mode lights. The firing list handed to the triggers ignores them.
- The corner button (8, 8) takes the top-row branch with x = 8, so from a track in the last row it selects track 64. Pattern mode then indexes the pattern out of range, while Mutes mode never indexes it by track (`CornerHitLeavesPattern`).
- In direct-count mode, a negative pulse count that is not a multiple of 64 gives a step of 193..255, because of Go's truncating `%` and the byte conversion. The next index by step panics. A negative multiple of 64 gives step 0.
- On the MK2, the press of the pad that `Light(x, y)` lights reads back as `(x + 1, y + 1)`: the decoder does not undo the LED offset (`ReadOfLightIsOffByOne`). Both functions are modelled as written.

## Model

| member | source | states |
|---|---|---|
| `Sequencer.NewSequencer` | sequencer.go:68-76 | a fresh sequencer has an empty pattern, no mutes, track 0, Pattern mode and stepSkip 0 |
| `SequencerProperties.NewSequencerCountsDirectly` | sequencer.go:68-92 | because stepSkip starts at 0, every non-negative pulse advances a fresh sequencer to count mod 64 |
| `Sequencer.Advance` | sequencer.go:86-102 | with stepSkip <= 1 the cursor always moves and step = count mod 64, which is >= 64 for a negative count not divisible by 64; with stepSkip > 1 it moves by exactly one step when count is divisible by stepSkip (Go's remainder shown equivalent) and otherwise nothing changes; prevStep takes the old step; pattern, mutes, track, mode untouched |
| `SequencerProperties.SixteenthAdvancesEverySixth` | sequencer.go:93-101 | at the 16th resolution the cursor moves exactly on pulses divisible by 6, by one step, and the state is unchanged otherwise |
| `SequencerProperties.DirectCountLightsPosition` | sequencer.go:86-130 | in direct-count Pattern mode a pulse's first light is the position colour at pad (k mod 8, k div 8) for k = count mod 64, or at (0, 0) when the cursor did not move |
| `Sequencer.HitToStep` | sequencer.go:467-469 | a playable pad's step is below 64 and its column and row are the step mod 8 and div 8 |
| `Sequencer.StepToHit` | sequencer.go:471-476 | the pad of a step satisfies 8y + x = step with x < 8, and is playable for steps below 64 |
| `SequencerProperties.GridBijection` | sequencer.go:467-476 | hitToStep and stepToHit are inverse bijections between the 8x8 pads and the steps 0..63 |
| `SequencerProperties.HitToStepInjective` | sequencer.go:467-469 | distinct playable pads stand for distinct steps |
| `Sequencer.AdvanceLights` | sequencer.go:106-130 | with prevStep = step only (0, 0) gets the position colour; otherwise the new step's pad gets the position colour, then the previous step's pad gets the step colour or off depending on its value |
| `SequencerProperties.AdvanceLightsRestores` | sequencer.go:106-130 | the pad the cursor left is given exactly what a full redraw of the current track shows there |
| `SequencerProperties.FiringExact` | sequencer.go:157-167 | the firing list holds exactly the tracks with a positive value at the step, with that value, once each, in ascending track order, independent of the mutes |
| `Sequencer.Deliver` | sequencer.go:168-173 | the same (step, firing list) goes to the triggers in registration order; delivery stops at the first trigger that fails, whose index is the fault, and every trigger before it accepted |
| `SequencerProperties.ToggledStepFires` | sequencer.go:310-319 | in direct-count mode, a step toggled on in the current track appears as (track, 1) in every trigger delivery made on the pulse whose count lands on it |
| `SequencerProperties.FlashExact` | sequencer.go:133-154 | the first half of the flash lights, in the position colour, exactly the pads of the unmuted tracks firing at the step |
| `SequencerProperties.FlashPairs` | sequencer.go:133-154 | the second half of the flash switches off the pads of the first half, in the same order |
| `Sequencer.LightCurrentTrack` | sequencer.go:189-198 | two step-colour lights, one on the top row and one on the right column, whose column and row recompose the current track (8 * row + column = track) |
| `SequencerProperties.LightMutesExact` | sequencer.go:201-211 | lightMutes lights a pad, in the step colour, exactly when the pad's track is muted |
| `SequencerProperties.LightTrackStepsExact` | sequencer.go:214-229 | lightTrackSteps lights every playable pad exactly once, in the step colour when its step's value is positive and off otherwise |
| `Sequencer.Redraw` | sequencer.go:381-392 | a redraw resets the pad and lights the current-track markers. After them come exactly the lights of lightTrackSteps for the current track (Pattern) or of lightMutes (Mutes). Only a Pattern redraw with a track past 63 faults, and it then emits nothing after the markers |
| `Sequencer.SetCurrentTrackFrom` | sequencer.go:394-417 | a top-row hit replaces the column and keeps the row, a right-column hit replaces the row and keeps the column, a matching component is a no-op, a hit on neither is an error. The corner (8, 8) selects the byte 8 * (track div 8 + 1). The track stays below 64 when the hit is not the corner |
| `SequencerProperties.ReselectRedraws` | sequencer.go:296-303 | pressing the top-row button of the current column gives exactly the full redraw of the unchanged state, with its fault |
| `SequencerProperties.CornerHitLeavesPattern` | sequencer.go:395-403 | from any track below 64, the corner press (8, 8) selects 8 * (track div 8 + 1), the first track of the next row. The selected track is 64 or more exactly when the track was in the last row (56..63). In Pattern mode the redraw then faults with an index out of range, and only then |
| `Sequencer.Toggle` | sequencer.go:437-448 | only the pressed step of the current track changes, 0 to 1 and anything else to 0, the mutes are untouched, and the pad is lit in the colour of the new value; with a track past 63 it faults and changes nothing |
| `SequencerProperties.ToggleShowsPattern` | sequencer.go:437-448 | the light a toggle emits equals what a full redraw of the edited track shows at that pad |
| `SequencerProperties.ToggleTwice` | sequencer.go:437-448 | toggling the same pad twice restores a 0/1 step and re-emits its original colour, never touching the mutes |
| `SequencerProperties.ToggleTwiceNormalises` | sequencer.go:442-447 | two toggles turn a value above 1 into 1 rather than restoring it |
| `Sequencer.ToggleMute` | sequencer.go:451-459 | only the mute flag of the pad's track flips, the pattern is untouched, and the pad shows the step colour exactly when the track is now muted |
| `SequencerProperties.ToggleMuteTwice` | sequencer.go:451-459 | toggling a mute twice restores the state and re-emits the original colour |
| `SequencerProperties.ToggleMuteShowsMutes` | sequencer.go:451-459 | a full redraw of the mutes lights the pad in the step colour exactly when the toggle's light is in the step colour. After an unmute, the redraw lights that pad in no colour at all |
| `Sequencer.SetResolution` | sequencer.go:427-434 | "16th", "32nd" and "96th" set stepSkip to 6, 3 and 1; any other name is an unrecognized-resolution error |
| `Sequencer.HandlePulse` | sequencer.go:266-319 | a pulse changes nothing but the cursor, and leaves a well-formed state unless it faults. A pulse that does not move the cursor emits nothing. A moving pulse emits the advance lights (Pattern) or the flash (Mutes), then one delivery of (step, firing list) per trigger up to the first failure, which is the fault. A track past 63 (Pattern) or a step past 63 makes it panic |
| `Sequencer.HandlePress` | sequencer.go:242-307 | a top-row or right-column hit sets the track that setCurrentTrackFrom selects, then emits the full redraw of the new state with its fault. A pad hit is toggle in Pattern mode and toggleMuteFrom in Mutes mode. A press changes at most the pattern, the mutes and the current track, and leaves a well-formed state unless it faults |
| `Sequencer.Handle` | sequencer.go:284-365 | one event keeps the state well formed unless it faults. Only a Pattern-mode pad press edits the pattern, and only a Mutes-mode pad press edits the mutes. stepSkip never changes. A press is handled by HandlePress and a pulse by HandlePulse. A failed hit ends the loop with nothing emitted. Mode code 0 or 1 sets Pattern or Mutes and emits that mode's full redraw. Any other code ends the loop with an unrecognized-mode error, emitting nothing and changing nothing |
| `Sequencer.Boot` | sequencer.go:340-352 | the main loop lights the current-track markers and then emits the full Pattern-mode redraw, with its fault. It faults only when the track is past 63 |
| `Sequencer.Run` | sequencer.go:345-364 | a run of events keeps the state well formed unless it ends in a fault, and never changes stepSkip |
| `SequencerProperties.ModeRoundTrip` | sequencer.go:345-364 | switching to Mutes and back to Pattern leaves pattern, mutes, cursor and track as they were and ends with the Pattern redraw |
| `SequencerProperties.RunKeepsPatternWithoutPresses` | sequencer.go:264-276 | a run of pulses and mode changes never alters the pattern or the mutes |
| `Midi.Presses` | launchpad.go:88-100 | Read returns at most one hit per event, one per event only when every event is a press |
| `Midi.PressesAppend` | launchpad.go:88-100 | Read decodes events independently and in order: reading a concatenation concatenates the hits |
| `Midi.PressesEmpty` | launchpad.go:88-100 | a poll yields no hit exactly when it holds no event with a positive second data byte |
| `Midi.PressesAllPressed` | launchpad.go:88-100 | when every event is a press, the i-th hit is the decoding of the i-th event |
| `Launchpad.Velocity` | launchpad.go:105-111 | for green and red in [0, 3] the velocity 16g + r + 12 lies in [12, 63] and gives back g and r |
| `Launchpad.Light` | launchpad.go:109-116 | rows below 8 use note-on 0x90 with note x + 16y, the top row uses status 176 with data x + 104, both with the colour velocity |
| `Launchpad.LightAutomap` | launchpad.go:119-121 | a top-row light is controller 176 numbered x + 104 |
| `Launchpad.Reset` | launchpad.go:123-125 | the reset is the short message (0xb0, 0, 0): the top-row controller status with controller 0 and value 0, which no Light message with a colour in [0, 3] equals |
| `Launchpad.DecodeHit` | launchpad.go:89-99 | status 176 decodes to (data1 - 104, 8); any other status to x, y with 16y + x = data1, x in [0, 15] for non-negative data1 |
| `Launchpad.LightReadRoundTrip` | launchpad.go:88-121 | for x, y in [0, 8] reading back the message Light(x, y) sends gives exactly the hit (x, y) |
| `Mk3.Led` | mk3/launchpad.go:105 | for x, y in [0, 7] the LED index lies in [11, 88]; its last digit minus one is x and its leading digit is 8 - y |
| `Mk3.LightMessage` | mk3/launchpad.go:103-108 | a 13-byte SysEx: header, command 3, LED, red, green, blue, F7 |
| `Mk3.FlashMessage` | mk3/launchpad.go:110-114 | a 12-byte SysEx: header, command 1, LED, on colour, off colour, F7 |
| `Mk3.DecodeHit` | mk3/launchpad.go:88-97 | for non-negative data1, 10 * (8 - y) + x + 1 = data1, with x in [-1, 8] and 8 - y the leading digits |
| `Mk3.LedRoundTrip` | mk3/launchpad.go:92-105 | a press reporting the LED index of (x, y), for x, y in [0, 8], reads back as (x, y) |
| `Mk3.LedInjective` | mk3/launchpad.go:105 | distinct pads of the 8x8 grid have distinct LED indices |
| `Mk2.Led` | mk2/launchpad.go:109 | for x, y in [0, 7] the LED index lies in [11, 88]; its last digit is x + 1 and its leading digit y + 1 |
| `Mk2.Light` | mk2/launchpad.go:107-111 | a note-on 0x90 for the pad's LED with the colour as velocity |
| `Mk2.DecodeHit` | mk2/launchpad.go:85-99 | status 176 decodes to (data1 - 104, -1); any other status to x, y with 10y + x = data1, x in [0, 9] for non-negative data1 |
| `Mk2.ReadOfLightIsOffByOne` | mk2/launchpad.go:94-110 | the press of the pad Light(x, y) lights reads back as (x + 1, y + 1) |
| `ScrollingText.ColorByte` | scrolling_text.go:24-28 | for g, r in [0, 3] the colour byte stays below 128, carries the loop flag exactly for a looping text, and is 16g + r + 12 without it |
| `ScrollingText.NewBuilder` | scrolling_text.go:24-34 | a fresh builder holds exactly F0 00 20 29 09 and the colour byte |
| `ScrollingText.TextAndLoopDifferInColorOnly` | scrolling_text.go:13-28 | Text and TextLoop builders of one colour differ only in the colour byte, by 64 |
| `ScrollingText.ClampSpeed` | scrolling_text.go:40-44 | speeds above 7 become 7, 0 becomes 1, speeds 1..7 are kept |
| `ScrollingText.Add` | scrolling_text.go:39-50 | adding keeps the existing bytes and appends the clamped speed, then the text bytes |
| `ScrollingText.AddAll` | scrolling_text.go:39-50 | adding snippets never changes the bytes already collected |
| `ScrollingText.Perform` | scrolling_text.go:53-58 | the message sent is the collected bytes followed by one F7, which the builder keeps |
| `ScrollingText.MessageFraming` | scrolling_text.go:24-58 | whatever is added, the message starts with the header and colour byte and ends with F7 |
| `ScrollingText.PerformTwice` | scrolling_text.go:53-58 | performing a builder a second time sends its bytes followed by F7 F7 |
| `LaunchControlXL.Opened` | launchctl/xl/launchctl.go:70-75 | after opening every slot of every channel holds 128 |
| `LaunchControlXL.ChannelOf` | launchctl/xl/launchctl.go:144 | the channel is below NumChannels = 16 |
| `LaunchControlXL.KindOf` | launchctl/xl/launchctl.go:146 | the kind is a multiple of 16 below 256, and kind plus channel is the status byte |
| `LaunchControlXL.ControlSlot` | launchctl/xl/launchctl.go:157-174 | a controller number updates a slot in 0..31 or 48..51 |
| `LaunchControlXL.NoteSlot` | launchctl/xl/launchctl.go:176-193 | a note number updates a slot in 32..47 or 52..55 |
| `LaunchControlXL.SlotsPartition` | launchctl/xl/launchctl.go:157-193 | each slot 0..55 is reached by a controller or by a note and never both, and the slot maps invert the listed ranges |
| `LaunchControlXL.SlotsInjective` | launchctl/xl/launchctl.go:157-193 | two different controller numbers, or two different note numbers, never update the same slot |
| `LaunchControlXL.Store` | launchctl/xl/launchctl.go:160 | a write changes only value[channel][slot], within NumChannels x NumControls |
| `LaunchControlXL.ControlChange` | launchctl/xl/launchctl.go:157-174 | a controller number in a range stores data2 in its slot; any other number leaves the table unchanged |
| `LaunchControlXL.NoteChange` | launchctl/xl/launchctl.go:176-193 | a note number in a range stores data2 in its slot; any other number leaves the table unchanged |
| `LaunchControlXL.HandleEvent` | launchctl/xl/launchctl.go:140-155 | a controller message is controlChange and a note-on or note-off is noteChange, on the status's channel with both data bytes cut to a byte. Any other kind leaves the table unchanged. At most one entry changes; it is on the event's channel and holds the event's data2 byte |
| `LaunchControlXL.ResetMessage` | launchctl/xl/launchctl.go:196-207 | 105 bytes: F0 00 20 29 02 11 78, the template byte, then (i, colour) for i = 0..47, then F7 |

## Left out

- Main's concurrency is left out: the `select` over channels, context cancellation, the `modeChan` and `tick` sends in `SetMode` and `Pulse`, and the sync-connector goroutine. Only the handling of one event is modelled.
- The 40 ms pause in `flashStepTriggers` is left out; the model keeps the order of its lights.
- The pulse tempo is a float that is never read.
- `ReadFrom` and `WriteTo` are stubs with no behaviour.
- `invokeTriggersTrack` is never called. `AddTrigger` only appends, so triggers are given as a list in registration order.
- Errors returned by display writes are not modelled. Every `Light` and `Reset` is assumed to succeed; in Go a failed write would end the loop at that point.
- The sequencer's device API (`Hits()`, `Light(x, y, Color)`, `Hit.Err`) is not part of this model. It is modelled by the abstract effects above, with byte coordinates.
- All portmidi I/O is left out: `Open`, `discover`, `Listen` polling, `Close`, stream writes, the error of an input `Read`, and event timestamps. Only the values handed to `WriteShort` and `WriteSysExBytes` are modelled.
- `LaunchControl.Start` (polling goroutines and the mutex) is left out, and so are `Buffer` and `Flash`, which only pick a constant.
- The fixed Reset, Program and session-mode SysEx strings of the MK2 and MK3 are left out. They are constants.
- Hits with a coordinate outside [0, 8] are not modelled: `Sequencer.Handle` requires hits in [0, 8]. The Go loop accepts any hit. Hit(9, 0) is not a meta button, so `toggle` flips step 9 and lights (9, 0). Hit(0, 9) indexes step 72 and panics.
- A trigger is modelled as a fixed function of (step, firing list). So `Run` cannot express a Go `Trigger` with state of its own, such as one whose `Trig` fails only on its n-th call.
- Text for the scrolling-text builder is taken as the bytes of the Go string. UTF-8 encoding is not modelled.
- The demo programs under cmd/ and samples/ are left out, and so are the hardware-driven tests.

=== FILE: go_values.dfy ===
/** Integer conventions of the Go code being modelled, and the optional and
    fallible values the model returns instead of Go's (value, error) pairs. */
module GoValues {

  /** Go's `uint8` / `byte`. */
  type Byte = b: int | 0 <= b < 256

  /** Go's `int32`, the type of a clock pulse count. */
  type Int32 = i: int | -0x8000_0000 <= i < 0x8000_0000

  datatype Option<+T> = None | Some(value: T)

  datatype Result<+T, +E> = Ok(value: T) | Err(error: E)

  /** A conversion to `byte` keeps the low eight bits of the two's-complement
      representation, which is the Euclidean remainder modulo 256. */
  function ToByte(v: int): (b: Byte)
    ensures (v - b) % 256 == 0
    ensures 0 <= v < 256 ==> b == v
  {
    v % 256
  }

  /** Go's integer division truncates toward zero. */
  function GoDiv(a: int, b: int): (q: int)
    requires b > 0
    ensures 0 <= a ==> 0 <= q * b <= a < q * b + b
    ensures a < 0 ==> q * b - b < a <= q * b <= 0
  {
    if a >= 0 then
      DivBounds(a, b);
      a / b
    else
      DivBounds(-a, b);
      NegMul(-a / b, b);
      -(-a / b)
  }

  /** Go's `%`: the remainder takes the sign of the dividend. */
  function GoRem(a: int, b: int): (r: int)
    requires b > 0
    ensures a == GoDiv(a, b) * b + r
    ensures 0 <= a ==> 0 <= r < b
    ensures a < 0 ==> -b < r <= 0
  {
    if a >= 0 then
      DivBounds(a, b);
      a % b
    else
      DivBounds(-a, b);
      NegMul(-a / b, b);
      -(-a % b)
  }

  /** Go's remainder is zero exactly when Dafny's Euclidean one is. */
  lemma GoRemZero(a: int, b: int)
    requires b > 0
    ensures GoRem(a, b) == 0 <==> a % b == 0
  {
    var q := GoDiv(a, b);
    var r := GoRem(a, b);
    if r == 0 {
      MultipleRem(a, b, q);
    } else if a % b == 0 {
      DivBounds(a, b);
      var k := a / b;
      assert a == k * b;
      SubMul(k, q, b);
      assert (k - q) * b == r;
      NoMultipleStrictlyBetween(k - q, b, r);
    }
  }

  /** Euclidean quotient and remainder of a non-negative divisor. */
  lemma DivBounds(a: int, b: int)
    requires b > 0
    ensures a == (a / b) * b + a % b
    ensures 0 <= a % b < b
    ensures 0 <= a ==> 0 <= a / b
  {
    if 0 <= a && a / b < 0 {
      MulAtLeast(-(a / b), b);
      NegMul(a / b, b);
    }
  }

  lemma NegMul(x: int, b: int)
    ensures (-x) * b == -(x * b)
  {
  }

  lemma SubMul(x: int, y: int, b: int)
    ensures (x - y) * b == x * b - y * b
  {
  }

  /** A positive multiple of a positive number is at least that number. */
  lemma MulAtLeast(n: int, b: int)
    requires n >= 1 && b > 0
    ensures n * b >= b
  {
    SubMul(n, 1, b);
    assert (n - 1) * b >= 0;
  }

  /** No multiple of b lies strictly between -b and b except zero. */
  lemma NoMultipleStrictlyBetween(n: int, b: int, r: int)
    requires b > 0 && r != 0 && -b < r < b
    ensures n * b != r
  {
    if n >= 1 {
      MulAtLeast(n, b);
    } else if n <= -1 {
      MulAtLeast(-n, b);
      NegMul(n, b);
    }
  }

  /** A multiple of b leaves no Euclidean remainder. */
  lemma MultipleRem(a: int, b: int, k: int)
    requires b > 0
    requires a == k * b
    ensures a % b == 0
  {
    DivBounds(a, b);
    var q := a / b;
    SubMul(k, q, b);
    if a % b != 0 {
      NoMultipleStrictlyBetween(k - q, b, a % b);
    }
  }

  /** Dividing an exact multiple gives back its factor. */
  lemma DivExact(a: int, b: int, q: int)
    requires b > 0 && a == q * b
    ensures GoDiv(a, b) == q
  {
    var d := GoDiv(a, b);
    SubMul(d, q, b);
    if d > q {
      MulAtLeast(d - q, b);
    } else if d < q {
      MulAtLeast(q - d, b);
      SubMul(q, d, b);
    }
  }
}

=== FILE: launch_control_xl.dfy ===
/** The Launch Control XL (launchctl/xl/launchctl.go): a table of the last
    value of every control on every MIDI channel, updated from incoming
    controller and note events, and the SysEx that sets every light. */
module LaunchControlXL {
  import opened GoValues
  import Midi

  const NoteOffStatus := 0x80
  const NoteOnStatus := 0x90
  const ControlChangeStatus := 0xb0
  const NumChannels: nat := 16
  const NumControls: nat := 6 * 8 + 4 + 4
  /** The value a control holds before it has reported anything. */
  const Unset: Byte := 128

  /** channel => control slot => last value. */
  type Table = seq<seq<Byte>>

  predicate ValidTable(t: Table) {
    |t| == NumChannels && forall c :: 0 <= c < |t| ==> |t[c]| == NumControls
  }

  /** The table Open builds: every slot of every channel unset. */
  function Opened(): (t: Table)
    ensures ValidTable(t)
    ensures forall c, k :: 0 <= c < NumChannels && 0 <= k < NumControls ==> t[c][k] == Unset
  {
    seq(NumChannels, _ => seq(NumControls, _ => Unset))
  }

  /** The channel of a status: its low four bits. */
  function ChannelOf(status: int): (c: Byte)
    ensures c < NumChannels
  {
    status % 16
  }

  /** The low four bits of a status are the low four bits of its low byte. */
  lemma LowNibble(status: int)
    ensures status % 256 % 16 == status % 16
  {
    var q, r := status / 256, status % 256;
    var a, b := r / 16, r % 16;
    assert status == 16 * (16 * q + a) + b;
  }

  /** The kind of a status: bits four to seven. */
  function KindOf(status: int): (k: int)
    ensures 0 <= k < 256 && k % 16 == 0
    ensures k + ChannelOf(status) == status % 256
  {
    LowNibble(status);
    var r := status % 256;
    assert r == 16 * (r / 16) + r % 16;
    r - r % 16
  }

  /** The slot a controller number updates: the four rows of eight knobs
      and faders, then four buttons at slots 48..51. */
  function ControlSlot(data1: Byte): (slot: Option<nat>)
    ensures slot.Some? ==> slot.value < 32 || 48 <= slot.value < 52
  {
    if 13 <= data1 <= 20 then Some(data1 - 13 + 0)
    else if 29 <= data1 <= 36 then Some(data1 - 29 + 8)
    else if 49 <= data1 <= 56 then Some(data1 - 49 + 16)
    else if 77 <= data1 <= 84 then Some(data1 - 77 + 24)
    else if 104 <= data1 <= 107 then Some(data1 - 104 + 48)
    else None
  }

  /** The slot a note number updates: the two rows of buttons (slots
      32..47) and four more buttons at slots 52..55. */
  function NoteSlot(data1: Byte): (slot: Option<nat>)
    ensures slot.Some? ==> 32 <= slot.value < 48 || 52 <= slot.value < 56
  {
    if 41 <= data1 <= 44 then Some(data1 - 41 + 32)
    else if 57 <= data1 <= 60 then Some(data1 - 57 + 36)
    else if 73 <= data1 <= 76 then Some(data1 - 73 + 40)
    else if 89 <= data1 <= 92 then Some(data1 - 89 + 44)
    else if 105 <= data1 <= 108 then Some(data1 - 105 + 52)
    else None
  }

  /** The controller number that reports a slot, if a controller does. */
  function ControlFor(slot: nat): Option<Byte> {
    if slot < 8 then Some(slot + 13)
    else if slot < 16 then Some(slot - 8 + 29)
    else if slot < 24 then Some(slot - 16 + 49)
    else if slot < 32 then Some(slot - 24 + 77)
    else if 48 <= slot < 52 then Some(slot - 48 + 104)
    else None
  }

  /** The note number that reports a slot, if a note does. */
  function NoteFor(slot: nat): Option<Byte> {
    if 32 <= slot < 36 then Some(slot - 32 + 41)
    else if 36 <= slot < 40 then Some(slot - 36 + 57)
    else if 40 <= slot < 44 then Some(slot - 40 + 73)
    else if 44 <= slot < 48 then Some(slot - 44 + 89)
    else if 52 <= slot < 56 then Some(slot - 52 + 105)
    else None
  }

  /** Each slot 0..55 is reported by exactly one control: a controller for
      slots 0..31 and 48..51, a note for the others; the two maps are each
      one-to-one, so no two controls share a slot. */
  lemma SlotsPartition(slot: nat, d: Byte)
    ensures slot < NumControls ==> (ControlFor(slot).Some? <==> NoteFor(slot).None?)
    ensures ControlFor(slot).Some? ==> ControlSlot(ControlFor(slot).value) == Some(slot)
    ensures NoteFor(slot).Some? ==> NoteSlot(NoteFor(slot).value) == Some(slot)
    ensures ControlSlot(d).Some? ==> ControlFor(ControlSlot(d).value) == Some(d)
    ensures NoteSlot(d).Some? ==> NoteFor(NoteSlot(d).value) == Some(d)
    ensures ControlSlot(d).Some? ==> NoteSlot(d).None? || ControlSlot(d).value != NoteSlot(d).value
  {
  }

  /** Two different controller numbers (or note numbers) never update the
      same slot. */
  lemma SlotsInjective(d1: Byte, d2: Byte)
    ensures ControlSlot(d1).Some? && ControlSlot(d1) == ControlSlot(d2) ==> d1 == d2
    ensures NoteSlot(d1).Some? && NoteSlot(d1) == NoteSlot(d2) ==> d1 == d2
  {
    SlotsPartition(0, d1);
    SlotsPartition(0, d2);
  }

  /** Stores one value in the table. */
  function Store(t: Table, channel: Byte, slot: nat, value: Byte): (t': Table)
    requires ValidTable(t) && channel < NumChannels && slot < NumControls
    ensures ValidTable(t')
    ensures t'[channel][slot] == value
    ensures forall c, k :: 0 <= c < NumChannels && 0 <= k < NumControls && (c != channel || k != slot) ==>
              t'[c][k] == t[c][k]
  {
    var row: seq<Byte> := t[channel];
    t[channel := row[slot := value]]
  }

  /** controlChange: a controller number inside one of the ranges stores the
      value in its slot; any other number changes nothing. */
  function ControlChange(t: Table, channel: Byte, data1: Byte, data2: Byte): (t': Table)
    requires ValidTable(t) && channel < NumChannels
    ensures ValidTable(t')
    ensures ControlSlot(data1).None? ==> t' == t
    ensures ControlSlot(data1).Some? ==> t' == Store(t, channel, ControlSlot(data1).value, data2)
  {
    match ControlSlot(data1)
    case None => t
    case Some(slot) => Store(t, channel, slot, data2)
  }

  /** noteChange: the same for note numbers, note-on and note-off alike. */
  function NoteChange(t: Table, channel: Byte, data1: Byte, data2: Byte): (t': Table)
    requires ValidTable(t) && channel < NumChannels
    ensures ValidTable(t')
    ensures NoteSlot(data1).None? ==> t' == t
    ensures NoteSlot(data1).Some? ==> t' == Store(t, channel, NoteSlot(data1).value, data2)
  {
    match NoteSlot(data1)
    case None => t
    case Some(slot) => Store(t, channel, slot, data2)
  }

  /** event: the status picks the channel and the kind of message; both data
      bytes are cut to a byte. A controller message is controlChange, a
      note-on or note-off is noteChange, anything else changes nothing; at
      most one entry changes, on the event's channel. */
  function HandleEvent(t: Table, e: Midi.Event): (t': Table)
    requires ValidTable(t)
    ensures ValidTable(t')
    ensures KindOf(e.status) !in {ControlChangeStatus, NoteOnStatus, NoteOffStatus} ==> t' == t
    ensures KindOf(e.status) == ControlChangeStatus ==>
              t' == ControlChange(t, ChannelOf(e.status), ToByte(e.data1), ToByte(e.data2))
    ensures KindOf(e.status) == NoteOnStatus || KindOf(e.status) == NoteOffStatus ==>
              t' == NoteChange(t, ChannelOf(e.status), ToByte(e.data1), ToByte(e.data2))
    ensures forall c1, k1, c2, k2 ::
              (0 <= c1 < NumChannels && 0 <= k1 < NumControls && 0 <= c2 < NumChannels && 0 <= k2 < NumControls
               && t'[c1][k1] != t[c1][k1] && t'[c2][k2] != t[c2][k2]) ==> c1 == c2 && k1 == k2
    ensures forall c, k :: 0 <= c < NumChannels && 0 <= k < NumControls && t'[c][k] != t[c][k] ==>
              c == ChannelOf(e.status) && t'[c][k] == ToByte(e.data2)
    ensures KindOf(e.status) == ControlChangeStatus && ControlSlot(ToByte(e.data1)).Some? ==>
              t'[ChannelOf(e.status)][ControlSlot(ToByte(e.data1)).value] == ToByte(e.data2)
    ensures (KindOf(e.status) == NoteOnStatus || KindOf(e.status) == NoteOffStatus)
              && NoteSlot(ToByte(e.data1)).Some? ==>
              t'[ChannelOf(e.status)][NoteSlot(ToByte(e.data1)).value] == ToByte(e.data2)
  {
    var channel := ChannelOf(e.status);
    var kind := KindOf(e.status);
    if kind == ControlChangeStatus then ControlChange(t, channel, ToByte(e.data1), ToByte(e.data2))
    else if kind == NoteOnStatus || kind == NoteOffStatus then NoteChange(t, channel, ToByte(e.data1), ToByte(e.data2))
    else t
  }

  /** The header of the "light all lights" SysEx, before the template byte. */
  const ResetHeader: seq<Byte> := [0xf0, 0x00, 0x20, 0x29, 0x02, 0x11, 0x78]

  /** Reset: the SysEx that sets each of the 48 lights of a template to one
      colour: the header, the template, then (index, colour) for indices
      0..47, then the end-of-exclusive byte. */
  method ResetMessage(tmpl: int, color: int) returns (data: seq<Byte>)
    ensures |data| == 8 + 2 * 48 + 1
    ensures data[..7] == ResetHeader && data[7] == ToByte(tmpl)
    ensures forall k :: 8 <= k < 104 ==> data[k] == if k % 2 == 0 then (k - 8) / 2 else ToByte(color)
    ensures data[104] == 0xf7
  {
    data := ResetHeader + [ToByte(tmpl)];
    var i := 0;
    while i < 48
      invariant 0 <= i <= 48
      invariant |data| == 8 + 2 * i
      invariant data[..7] == ResetHeader && data[7] == ToByte(tmpl)
      invariant forall k :: 8 <= k < |data| ==> data[k] == if k % 2 == 0 then (k - 8) / 2 else ToByte(color)
    {
      data := data + [ToByte(i), ToByte(color)];
      i := i + 1;
    }
    data := data + [0xf7];
  }
}

=== FILE: launchpad.dfy ===
/** The original Launchpad (launchpad.go): a 9x9 button layout where the
    8x8 grid and the right column (x = 8) are addressed by note-on messages
    with note x + 16y, and the top row (y = 8) by controller messages 104..111. */
module Launchpad {
  import opened GoValues
  import Midi

  const NoteOn := 0x90
  /** The controller status of the top-row buttons. */
  const TopRowStatus := 176
  const TopRowBase := 104

  datatype Hit = Hit(x: int, y: int)

  /** The velocity byte of a two-channel colour: green and red in [0, 3],
      with the copy and clear flags (8 + 4) set. */
  function Velocity(g: int, r: int): (v: int)
    ensures 0 <= g <= 3 && 0 <= r <= 3 ==> 12 <= v <= 63
    ensures 0 <= g <= 3 && 0 <= r <= 3 ==> (v - 12) / 16 == g && (v - 12) % 16 == r
  {
    16 * g + r + 8 + 4
  }

  /** Light: the message that lights (x, y). Rows below 8 and the right
      column use note-on with note x + 16y; the top row uses lightAutomap,
      a controller message numbered x + 104. */
  function Light(x: int, y: int, g: int, r: int): (m: Midi.Short)
    ensures m.data2 == Velocity(g, r)
    ensures y < 8 ==> m.status == NoteOn && m.data1 == x + 16 * y
    ensures y >= 8 ==> m.status == TopRowStatus && m.data1 == x + TopRowBase
  {
    var note := x + 16 * y;
    var velocity := Velocity(g, r);
    if y >= 8 then LightAutomap(x, velocity) else Midi.Short(NoteOn, note, velocity)
  }

  /** lightAutomap: the controller message of a top-row button. */
  function LightAutomap(x: int, velocity: int): (m: Midi.Short)
    ensures m.status == TopRowStatus && m.data1 - TopRowBase == x && m.data2 == velocity
  {
    Midi.Short(TopRowStatus, x + TopRowBase, velocity)
  }

  /** Reset: the controller message that turns every light off. It shares
      the top-row status but addresses controller 0 with value 0, so it is
      never the message that lights a button. */
  function Reset(): (m: Midi.Short)
    ensures m.status == TopRowStatus && m.data1 == 0 && m.data2 == 0
    ensures forall x, y, g, r :: 0 <= g <= 3 && 0 <= r <= 3 ==> m != Light(x, y, g, r)
  {
    Midi.Short(0xb0, 0, 0)
  }

  /** The button one event reports: a controller event is a top-row button;
      any other event is a note split into column (low nibble) and row. */
  function DecodeHit(e: Midi.Event): (h: Hit)
    ensures e.status == TopRowStatus ==> h == Hit(e.data1 - TopRowBase, 8)
    ensures e.status != TopRowStatus ==> 16 * h.y + h.x == e.data1
    ensures e.status != TopRowStatus && e.data1 >= 0 ==> 0 <= h.x < 16 && h.y == e.data1 / 16
  {
    if e.status == TopRowStatus then Hit(e.data1 - TopRowBase, 8)
    else
      var x := GoRem(e.data1, 16);
      var y := GoDiv(e.data1 - x, 16);
      DivExact(e.data1 - x, 16, GoDiv(e.data1, 16));
      Hit(x, y)
  }

  /** Read: one hit per press, in order; releases are dropped. */
  function Read(evts: seq<Midi.Event>): seq<Hit> {
    Midi.Presses(evts, DecodeHit)
  }

  /** A pressed button reported back with the message that lights it decodes
      to that button, on the grid, the right column and the top row. */
  lemma LightReadRoundTrip(x: int, y: int, g: int, r: int)
    requires 0 <= x <= 8 && 0 <= y <= 8 && 0 <= g <= 3 && 0 <= r <= 3
    ensures Read([Midi.Echo(Light(x, y, g, r))]) == [Hit(x, y)]
  {
    var e := Midi.Echo(Light(x, y, g, r));
    assert Midi.IsPress(e);
    if y < 8 {
      assert e.data1 == y * 16 + x;
      assert e.data1 / 16 == y;
    }
    assert [e][1..] == [];
  }
}

=== FILE: midi.dfy ===
/** The MIDI values the device drivers exchange with portmidi: events read
    from an input stream and short messages written to an output stream. */
module Midi {

  /** An event read from an input stream (portmidi's Event without its timestamp). */
  datatype Event = Event(status: int, data1: int, data2: int)

  /** A short message handed to WriteShort. */
  datatype Short = Short(status: int, data1: int, data2: int)

  /** The event a device reports when it sends back the message it was given. */
  function Echo(m: Short): (e: Event)
    ensures e.status == m.status && e.data1 == m.data1 && e.data2 == m.data2
  {
    Event(m.status, m.data1, m.data2)
  }

  /** Every Read decoder keeps only events with a positive second data byte:
      a button press; a release carries velocity 0. */
  predicate IsPress(e: Event) {
    e.data2 > 0
  }

  /** The hits a Read call returns for the events of one poll: each press is
      decoded in its turn and every other event is dropped. */
  function Presses<H>(evts: seq<Event>, decode: Event -> H): (hits: seq<H>)
    ensures |hits| <= |evts|
    ensures |hits| == |evts| ==> forall i :: 0 <= i < |evts| ==> IsPress(evts[i])
  {
    if |evts| == 0 then []
    else (if IsPress(evts[0]) then [decode(evts[0])] else []) + Presses(evts[1..], decode)
  }

  /** Decoding distributes over concatenation: events keep their order and
      are decoded independently of their neighbours. */
  lemma {:induction false} PressesAppend<H>(a: seq<Event>, b: seq<Event>, decode: Event -> H)
    ensures Presses(a + b, decode) == Presses(a, decode) + Presses(b, decode)
  {
    if |a| == 0 {
      assert a + b == b;
    } else {
      var head := if IsPress(a[0]) then [decode(a[0])] else [];
      assert (a + b)[0] == a[0];
      assert (a + b)[1..] == a[1..] + b;
      PressesAppend(a[1..], b, decode);
      calc {
        Presses(a + b, decode);
        head + Presses(a[1..] + b, decode);
        head + (Presses(a[1..], decode) + Presses(b, decode));
        (head + Presses(a[1..], decode)) + Presses(b, decode);
      }
    }
  }

  /** A poll yields no hits exactly when it holds no press. */
  lemma {:induction false} PressesEmpty<H>(evts: seq<Event>, decode: Event -> H)
    ensures Presses(evts, decode) == [] <==> forall i :: 0 <= i < |evts| ==> !IsPress(evts[i])
  {
    if |evts| > 0 {
      PressesEmpty(evts[1..], decode);
      if !IsPress(evts[0]) {
        forall i | 0 < i < |evts|
          ensures evts[i] == evts[1..][i - 1]
        {
        }
      }
    }
  }

  /** When every event is a press, the i-th hit is the decoding of the i-th event. */
  lemma {:induction false} PressesAllPressed<H>(evts: seq<Event>, decode: Event -> H)
    requires forall i :: 0 <= i < |evts| ==> IsPress(evts[i])
    ensures |Presses(evts, decode)| == |evts|
    ensures forall i :: 0 <= i < |evts| ==> Presses(evts, decode)[i] == decode(evts[i])
  {
    if |evts| > 0 {
      PressesAllPressed(evts[1..], decode);
    }
  }
}

=== FILE: mk2.dfy ===
/** The Launchpad MK2 (mk2/launchpad.go) in session mode: pads are numbered
    ten to a row from the bottom. Light addresses pad (x, y) as LED
    (y + 1) * 10 + x + 1, while Read splits a note into its decimal digits
    without removing that offset, so the two disagree by one in each axis. */
module Mk2 {
  import opened GoValues
  import Midi

  const NoteOn := 0x90
  /** The controller status of the top-row buttons. */
  const TopRowStatus := 176

  datatype Hit = Hit(x: int, y: int)

  /** The LED index Light addresses for pad (x, y). */
  function Led(x: int, y: int): (led: int)
    ensures 0 <= x <= 7 && 0 <= y <= 7 ==> 11 <= led <= 88
    ensures 0 <= x <= 8 ==> led % 10 == x + 1 && led / 10 == y + 1
  {
    (y + 1) * 10 + x + 1
  }

  /** Light: a note-on for the pad's LED with the palette colour as velocity. */
  function Light(x: int, y: int, color: int): (m: Midi.Short)
    ensures m.status == NoteOn && m.data1 == Led(x, y) && m.data2 == color
  {
    Midi.Short(NoteOn, Led(x, y), color)
  }

  /** The button one event reports: a controller event is a top-row button
      with y = -1; otherwise x and y are the last and leading decimal digits. */
  function DecodeHit(e: Midi.Event): (h: Hit)
    ensures e.status == TopRowStatus ==> h == Hit(e.data1 - 104, -1)
    ensures e.status != TopRowStatus ==> 10 * h.y + h.x == e.data1
    ensures e.status != TopRowStatus && e.data1 >= 0 ==> 0 <= h.x <= 9 && h.y == e.data1 / 10
  {
    if e.status == TopRowStatus then Hit(e.data1 - 104, -1)
    else
      var x := GoRem(e.data1, 10);
      var y := GoDiv(e.data1 - x, 10);
      DivExact(e.data1 - x, 10, GoDiv(e.data1, 10));
      Hit(x, y)
  }

  /** Read: one hit per press, in order; releases are dropped. */
  function Read(evts: seq<Midi.Event>): seq<Hit> {
    Midi.Presses(evts, DecodeHit)
  }

  /** The press of the pad that Light(x, y) lights reads back as
      (x + 1, y + 1): the decoder does not undo the LED offset. */
  lemma ReadOfLightIsOffByOne(x: int, y: int, color: int)
    requires 0 <= x <= 7 && 0 <= y <= 7 && color > 0
    ensures Read([Midi.Echo(Light(x, y, color))]) == [Hit(x + 1, y + 1)]
  {
    var e := Midi.Echo(Light(x, y, color));
    assert e.data1 == (y + 1) * 10 + (x + 1);
    assert e.data1 / 10 == y + 1;
    assert [e][1..] == [];
  }
}

=== FILE: mk3.dfy ===
/** The Launchpad Mini MK3 (mk3/launchpad.go) in programmer mode: pads are
    numbered row by row from the bottom, ten to a row, so pad (x, y) with
    y = 0 at the top is LED (8 - y) * 10 + x + 1. Lights are set by SysEx. */
module Mk3 {
  import opened GoValues
  import Midi

  datatype Hit = Hit(x: int, y: int)

  /** The LED index of pad (x, y). */
  function Led(x: int, y: int): (led: int)
    ensures 0 <= x <= 7 && 0 <= y <= 7 ==> 11 <= led <= 88
    ensures 0 <= x <= 8 ==> (led - 1) % 10 == x
    ensures 0 <= x <= 8 ==> (led - 1) / 10 == 8 - y
  {
    (8 - y) * 10 + x + 1
  }

  /** The SysEx header of an LED lighting command. */
  const LedHeader: seq<Byte> := [0xF0, 0x00, 0x20, 0x29, 0x02, 0x0D, 0x03]

  /** Light: set pad (x, y) to an RGB colour, each component cut to a byte. */
  function LightMessage(x: int, y: int, red: int, green: int, blue: int): (m: seq<Byte>)
    ensures |m| == 13
    ensures m[..7] == LedHeader && m[7] == 0x03 && m[12] == 0xF7
    ensures m[8] == ToByte(Led(x, y))
    ensures m[9] == ToByte(red) && m[10] == ToByte(green) && m[11] == ToByte(blue)
  {
    LedHeader + [0x03, ToByte(Led(x, y)), ToByte(red), ToByte(green), ToByte(blue), 0xF7]
  }

  /** FlashLight: flash pad (x, y) between two palette colours. */
  function FlashMessage(x: int, y: int, onColor: int, offColor: int): (m: seq<Byte>)
    ensures |m| == 12
    ensures m[..7] == LedHeader && m[7] == 0x01 && m[11] == 0xF7
    ensures m[8] == ToByte(Led(x, y))
    ensures m[9] == ToByte(onColor) && m[10] == ToByte(offColor)
  {
    LedHeader + [0x01, ToByte(Led(x, y)), ToByte(onColor), ToByte(offColor), 0xF7]
  }

  /** The pad a note event reports: x from the last decimal digit, y counted
      from the top. */
  function DecodeHit(e: Midi.Event): (h: Hit)
    ensures e.data1 >= 0 ==> 10 * (8 - h.y) + h.x + 1 == e.data1
    ensures e.data1 >= 0 ==> -1 <= h.x <= 8 && h.y == 8 - e.data1 / 10
  {
    var x := GoRem(e.data1, 10) - 1;
    var y := 8 - GoDiv(e.data1 - x, 10);
    Hit(x, y)
  }

  /** Read: one hit per press, in order; releases are dropped. */
  function Read(evts: seq<Midi.Event>): seq<Hit> {
    Midi.Presses(evts, DecodeHit)
  }

  /** The pad whose LED index a press reports is the pad that index lights. */
  lemma LedRoundTrip(x: int, y: int, status: int, velocity: int)
    requires 0 <= x <= 8 && 0 <= y <= 8 && velocity > 0
    ensures Read([Midi.Event(status, Led(x, y), velocity)]) == [Hit(x, y)]
  {
    var led := Led(x, y);
    assert led == (8 - y) * 10 + (x + 1);
    assert GoRem(led, 10) == x + 1;
    assert led - x == (8 - y) * 10 + 1;
    assert GoDiv(led - x, 10) == 8 - y;
    assert [Midi.Event(status, led, velocity)][1..] == [];
  }

  /** Distinct pads of the 8x8 grid have distinct LED indices. */
  lemma LedInjective(x1: int, y1: int, x2: int, y2: int)
    requires 0 <= x1 <= 7 && 0 <= y1 <= 7 && 0 <= x2 <= 7 && 0 <= y2 <= 7
    requires Led(x1, y1) == Led(x2, y2)
    ensures x1 == x2 && y1 == y2
  {
    LedRoundTrip(x1, y1, 0x90, 1);
    LedRoundTrip(x2, y2, 0x90, 1);
  }
}

=== FILE: scrolling_text.dfy ===
/** The scrolling-text builder of scrolling_text.go: a SysEx message
    `F0 00 20 29 09 <colour> (<speed> <text>)* F7` assembled piece by piece.
    Text is taken as the bytes of the Go string. */
module ScrollingText {
  import opened GoValues

  /** The fixed part of the message before the colour byte. */
  const Header: seq<Byte> := [0xF0, 0x00, 0x20, 0x29, 0x09]
  const EndOfExclusive: Byte := 0xF7
  /** The colour-byte flag that makes the text loop. */
  const LoopFlag := 64

  /** The bytes collected so far. */
  datatype Builder = Builder(bytes: seq<Byte>)

  /** The colour byte: green and red in [0, 3] with the copy and clear flags,
      plus the loop flag for a looping text; byte arithmetic wraps. */
  function ColorByte(g: int, r: int, loop: bool): (c: Byte)
    ensures 0 <= g <= 3 && 0 <= r <= 3 ==> c < 128 && (c >= LoopFlag <==> loop)
    ensures 0 <= g <= 3 && 0 <= r <= 3 ==> c % LoopFlag == 16 * g + r + 12
  {
    var color := ToByte(16 * g + r + 8 + 4);
    if loop then ToByte(color + LoopFlag) else color
  }

  /** text: a fresh builder holding the header and the colour byte. */
  function NewBuilder(g: int, r: int, loop: bool): (b: Builder)
    ensures |b.bytes| == 6 && b.bytes[..5] == Header && b.bytes[5] == ColorByte(g, r, loop)
  {
    Builder(Header + [ColorByte(g, r, loop)])
  }

  /** Text: a builder for a text shown once. */
  function Text(g: int, r: int): Builder {
    NewBuilder(g, r, false)
  }

  /** TextLoop: a builder for a text that scrolls until replaced. */
  function TextLoop(g: int, r: int): Builder {
    NewBuilder(g, r, true)
  }

  /** The speed actually sent: at most 7, and at least 1. */
  function ClampSpeed(speed: Byte): (s: Byte)
    ensures 1 <= s <= 7
    ensures 1 <= speed <= 7 ==> s == speed
    ensures speed > 7 ==> s == 7
    ensures speed == 0 ==> s == 1
  {
    if speed > 7 then 7 else if speed < 1 then 1 else speed
  }

  /** Add: appends the clamped speed and the text, keeping what was there. */
  function Add(b: Builder, speed: Byte, text: seq<Byte>): (b': Builder)
    ensures |b'.bytes| == |b.bytes| + 1 + |text|
    ensures b'.bytes[..|b.bytes|] == b.bytes
    ensures b'.bytes[|b.bytes|] == ClampSpeed(speed)
    ensures b'.bytes[|b.bytes| + 1..] == text
  {
    Builder(b.bytes + [ClampSpeed(speed)] + text)
  }

  /** Perform: appends the end-of-exclusive byte to the builder and sends
      all of its bytes. The builder keeps the appended byte. */
  function Perform(b: Builder): (r: (Builder, seq<Byte>))
    ensures r.0.bytes == r.1
    ensures |r.1| == |b.bytes| + 1 && r.1[..|b.bytes|] == b.bytes && r.1[|b.bytes|] == EndOfExclusive
  {
    var bytes := b.bytes + [EndOfExclusive];
    (Builder(bytes), bytes)
  }

  /** One text snippet with its speed. */
  datatype Snippet = Snippet(speed: Byte, text: seq<Byte>)

  /** Adds the snippets in order. */
  function AddAll(b: Builder, snippets: seq<Snippet>): (b': Builder)
    ensures |b'.bytes| >= |b.bytes| && b'.bytes[..|b.bytes|] == b.bytes
    decreases |snippets|
  {
    if |snippets| == 0 then b
    else AddAll(Add(b, snippets[0].speed, snippets[0].text), snippets[1..])
  }

  /** However many snippets are added, the message sent starts with the
      header and colour byte and its last byte is the end-of-exclusive byte. */
  lemma {:induction false} MessageFraming(g: int, r: int, loop: bool, snippets: seq<Snippet>)
    ensures
      var msg := Perform(AddAll(NewBuilder(g, r, loop), snippets)).1;
      && |msg| >= 7
      && msg[..5] == Header && msg[5] == ColorByte(g, r, loop)
      && msg[|msg| - 1] == EndOfExclusive
  {
    var b0 := NewBuilder(g, r, loop);
    var b := AddAll(b0, snippets);
    assert b.bytes[..6] == b0.bytes;
    var msg := Perform(b).1;
    assert msg[..|b.bytes|] == b.bytes;
    assert msg[..5] == b.bytes[..5];
  }

  /** A Text and a TextLoop builder of the same colour differ only in the
      colour byte, by the loop flag. */
  lemma TextAndLoopDifferInColorOnly(g: int, r: int)
    requires 0 <= g <= 3 && 0 <= r <= 3
    ensures |Text(g, r).bytes| == |TextLoop(g, r).bytes| == 6
    ensures Text(g, r).bytes[..5] == TextLoop(g, r).bytes[..5]
    ensures TextLoop(g, r).bytes[5] == Text(g, r).bytes[5] + LoopFlag
  {
  }

  /** Performing the same builder twice sends the second message with two
      end-of-exclusive bytes, since the first Perform kept its 0xF7. */
  lemma PerformTwice(b: Builder)
    ensures
      var first := Perform(b);
      var second := Perform(first.0);
      second.1 == first.1 + [EndOfExclusive] && second.1[|b.bytes|..] == [EndOfExclusive, EndOfExclusive]
  {
    var first := Perform(b);
    var second := Perform(first.0);
    assert second.1[|b.bytes|..] == [second.1[|b.bytes|], second.1[|b.bytes| + 1]];
  }
}

=== FILE: sequencer.dfy ===
/** The 64-track x 64-step pattern sequencer of sequencer.go as a pure state
    machine. The 8x8 grid of a Launchpad shows either the steps of the
    current track (Pattern mode) or the mute flags of all tracks (Mutes
    mode); the top row (y = 8) and the right column (x = 8) select the
    current track. Every handler returns the new state together with what
    it emitted: lights and resets for the display, and step deliveries to
    the registered triggers. A Go runtime panic (an index out of range) is
    reported as the fault IndexOutOfRange. */
module Sequencer {
  import opened GoValues

  const GridX: nat := 8
  const GridY: nat := 8
  const GridSize: nat := GridX * GridY

  /** One channel of a two-channel pad colour. */
  datatype Level = Off | Low | Medium | Full

  datatype Color = Color(green: Level, red: Level)

  /** The colour of the play position. */
  const PosColor := Color(Medium, Off)
  /** The colour of a step that is on, and of a muted track. */
  const StepColor := Color(Off, Full)
  /** An unlit pad. */
  const NoColor := Color(Off, Off)

  /** A button on the pad; in the sequencer's device API coordinates are bytes. */
  datatype Hit = Hit(x: Byte, y: Byte)

  datatype Mode = Pattern | Mutes

  /** One firing track of a step, with its value in the pattern. */
  datatype Trig = Trig(track: Byte, value: Byte)

  /** A registered trigger: true when it accepts a step's firing list
      (its Go method returns a nil error). */
  type Trigger = (Byte, seq<Trig>) -> bool

  /** What a handler emits, in order. */
  datatype Effect =
    | Light(x: Byte, y: Byte, color: Color)
    | Reset
    | Fire(trigger: nat, step: Byte, trigs: seq<Trig>)

  /** Why the main loop stops. */
  datatype Fault =
    | HitFailed
    | NotTrackSelection
    | UnrecognizedMode(code: int)
    | UnrecognizedResolution(name: string)
    | TriggerFailed(trigger: nat)
    | IndexOutOfRange

  datatype State = State(
    tracks: seq<seq<Byte>>,   // track => step => value
    mutes: seq<bool>,
    track: Byte,
    step: Byte,
    prevStep: Byte,
    stepSkip: int,
    mode: Mode)

  /** Effects emitted so far and the fault that ended them, if any. */
  datatype Emitted = Emitted(effects: seq<Effect>, fault: Option<Fault>)

  /** The state after an event, the effects it emitted and the fault, if any,
      that ends the main loop. */
  datatype Outcome = Outcome(state: State, effects: seq<Effect>, fault: Option<Fault>)

  datatype Advanced = Advanced(moved: bool, state: State)

  /** The values `stepSkip` can hold: zero before any resolution is set,
      afterwards one of the resolution divisors. */
  predicate ValidSkip(k: int) {
    k == 0 || k == 1 || k == 3 || k == 6
  }

  predicate ValidPattern(tracks: seq<seq<Byte>>) {
    |tracks| == GridSize && forall t :: 0 <= t < |tracks| ==> |tracks[t]| == GridSize
  }

  /** The shape of the Go arrays and the range of the play cursor. The
      current track is a byte and is deliberately not bounded here: the
      top-row branch of track selection can move it past 63. */
  predicate Valid(s: State) {
    && ValidPattern(s.tracks)
    && |s.mutes| == GridSize
    && s.step < GridSize
    && s.prevStep < GridSize
    && ValidSkip(s.stepSkip)
  }

  /** The colour a step cell shows for its value in the pattern. */
  function CellColor(v: Byte): Color {
    if v > 0 then StepColor else NoColor
  }

  /** A playable pad, as opposed to a track-selection button. */
  predicate OnGrid(h: Hit) {
    h.x < GridX && h.y < GridY
  }

  /** The step (or, in Mutes mode, the track) a playable pad stands for. */
  function HitToStep(h: Hit): (s: Byte)
    ensures OnGrid(h) ==> s < GridSize && s % 8 == h.x && s / 8 == h.y
  {
    ToByte(8 * h.y + h.x)
  }

  /** The pad that shows a step, in row-major order. */
  function StepToHit(s: Byte): (h: Hit)
    ensures h.x < GridX
    ensures 8 * h.y + h.x == s
    ensures s < GridSize ==> OnGrid(h)
  {
    Hit(s % GridX, s / 8)
  }

  /** A light at the pad that shows step (or track) `s`. */
  function LightStep(s: Byte, c: Color): Effect {
    var h := StepToHit(s);
    Light(h.x, h.y, c)
  }

  /** The sequencer as NewSequencer builds it: an empty pattern, no mutes,
      track 0, Pattern mode, and `stepSkip` left at Go's zero value. */
  function NewSequencer(): (s: State)
    ensures Valid(s)
    ensures s.mode == Pattern && s.track == 0 && s.step == 0 && s.prevStep == 0
    ensures s.stepSkip == 0
    ensures forall t, i :: 0 <= t < GridSize && 0 <= i < GridSize ==> s.tracks[t][i] == 0
    ensures forall t :: 0 <= t < GridSize ==> !s.mutes[t]
  {
    State(seq(GridSize, _ => seq(GridSize, _ => 0)), seq(GridSize, _ => false), 0, 0, 0, 0, Pattern)
  }

  /** Moves the play cursor for the pulse `count`. With a divisor of at most
      one the step is the count modulo 64; otherwise only every stepSkip-th
      pulse moves the step, by one. Go's `%` truncates and the result is
      converted to a byte, so a negative count leaves the step out of range. */
  function Advance(s: State, count: Int32): (a: Advanced)
    requires Valid(s)
    ensures a.state.tracks == s.tracks && a.state.mutes == s.mutes && a.state.track == s.track
    ensures a.state.stepSkip == s.stepSkip && a.state.mode == s.mode
    ensures s.stepSkip <= 1 ==> a.moved && a.state.prevStep == s.step
    ensures s.stepSkip <= 1 && count >= 0 ==> a.state.step == count % GridSize
    ensures s.stepSkip <= 1 && count < 0 && count % GridSize != 0 ==> a.state.step >= GridSize
    ensures s.stepSkip > 1 && count % s.stepSkip != 0 ==> !a.moved && a.state == s
    ensures s.stepSkip > 1 && count % s.stepSkip == 0 ==>
              a.moved && a.state.prevStep == s.step && a.state.step == (s.step + 1) % GridSize
    ensures a.state.prevStep < GridSize
    ensures count >= 0 || s.stepSkip > 1 ==> Valid(a.state)
  {
    if s.stepSkip <= 1 then
      GoRemZero(count, GridSize);
      Advanced(true, s.(prevStep := s.step, step := ToByte(GoRem(count, GridSize))))
    else
      GoRemZero(count, s.stepSkip);
      if GoRem(count, s.stepSkip) != 0 then
        Advanced(false, s)
      else
        Advanced(true, s.(prevStep := s.step, step := (s.step + 1) % GridSize))
  }

  /** The two-cell light update after the cursor moved: the new step gets
      the position colour and the previous step gets back its pattern colour.
      When the cursor did not move (the very first pulse) only (0, 0) is lit. */
  function AdvanceLights(s: State): (fx: seq<Effect>)
    requires ValidPattern(s.tracks) && s.track < GridSize && s.prevStep < GridSize
    ensures s.prevStep == s.step ==> fx == [Light(0, 0, PosColor)]
    ensures s.prevStep != s.step ==>
              fx == [LightStep(s.step, PosColor), LightStep(s.prevStep, CellColor(s.tracks[s.track][s.prevStep]))]
  {
    var prevValue := s.tracks[s.track][s.prevStep];
    if s.prevStep == s.step then [Light(0, 0, PosColor)]
    else [LightStep(s.step, PosColor), LightStep(s.prevStep, CellColor(prevValue))]
  }

  /** The indices in t.. whose flag is set, in ascending order: the order in
      which the Go loops over tracks visit them. */
  function IndicesFrom(flags: seq<bool>, t: nat): (ts: seq<Byte>)
    requires |flags| == GridSize && t <= GridSize
    ensures forall i :: 0 <= i < |ts| ==> t <= ts[i] < GridSize && flags[ts[i]]
    ensures forall i, j :: 0 <= i < j < |ts| ==> ts[i] < ts[j]
    ensures forall k :: t <= k < GridSize && flags[k] ==> k in ts
    decreases GridSize - t
  {
    if t == GridSize then []
    else
      var rest := IndicesFrom(flags, t + 1);
      if flags[t] then [t as Byte] + rest else rest
  }

  /** The indices whose flag is set, ascending. */
  function Indices(flags: seq<bool>): seq<Byte>
    requires |flags| == GridSize
  {
    IndicesFrom(flags, 0)
  }

  /** The firing list invokeTriggers builds: every track with a positive
      value at the step, muted or not, in ascending track order. */
  function Firing(tracks: seq<seq<Byte>>, step: nat): (trigs: seq<Trig>)
    requires ValidPattern(tracks) && step < GridSize
  {
    var ts := Indices(seq(GridSize, k requires 0 <= k < GridSize => tracks[k][step] > 0));
    seq(|ts|, i requires 0 <= i < |ts| => Trig(ts[i], tracks[ts[i]][step]))
  }

  /** Hands (step, trigs) to the triggers from index `i` on, in registration
      order, stopping after the first one that fails. */
  function Deliver(triggers: seq<Trigger>, i: nat, step: Byte, trigs: seq<Trig>): (d: Emitted)
    requires i <= |triggers|
    ensures forall k :: 0 <= k < |d.effects| ==> d.effects[k] == Fire(i + k, step, trigs)
    ensures d.fault.None? ==>
              |d.effects| == |triggers| - i && forall k :: i <= k < |triggers| ==> triggers[k](step, trigs)
    ensures d.fault.Some? ==>
              && 0 < |d.effects| <= |triggers| - i
              && d.fault == Some(TriggerFailed(i + |d.effects| - 1))
              && !triggers[i + |d.effects| - 1](step, trigs)
              && forall k :: i <= k < i + |d.effects| - 1 ==> triggers[k](step, trigs)
    decreases |triggers| - i
  {
    if i == |triggers| then Emitted([], None)
    else if !triggers[i](step, trigs) then Emitted([Fire(i, step, trigs)], Some(TriggerFailed(i)))
    else
      var rest := Deliver(triggers, i + 1, step, trigs);
      Emitted([Fire(i, step, trigs)] + rest.effects, rest.fault)
  }

  /** invokeTriggers: the firing list of the current step, handed to every
      trigger. It reads neither the mutes nor the current track. */
  function InvokeTriggers(tracks: seq<seq<Byte>>, step: Byte, triggers: seq<Trigger>): Emitted
    requires ValidPattern(tracks) && step < GridSize
  {
    Deliver(triggers, 0, step, Firing(tracks, step))
  }

  /** Lights, in order, the pads that show the given steps (or tracks). */
  function LightAll(ts: seq<Byte>, c: Color): (fx: seq<Effect>)
    ensures |fx| == |ts|
  {
    seq(|ts|, i requires 0 <= i < |ts| => LightStep(ts[i], c))
  }

  /** The unmuted tracks that fire at `step`. */
  function FlashTracks(tracks: seq<seq<Byte>>, mutes: seq<bool>, step: nat): seq<Byte>
    requires ValidPattern(tracks) && |mutes| == GridSize && step < GridSize
  {
    Indices(seq(GridSize, k requires 0 <= k < GridSize => !mutes[k] && tracks[k][step] > 0))
  }

  /** flashStepTriggers, without its 40 ms pause: the pads of the unmuted
      firing tracks are lit in the position colour, then switched off in the
      same order. */
  function FlashStepTriggers(tracks: seq<seq<Byte>>, mutes: seq<bool>, step: Byte): (fx: seq<Effect>)
    requires ValidPattern(tracks) && |mutes| == GridSize && step < GridSize
  {
    var ts := FlashTracks(tracks, mutes, step);
    LightAll(ts, PosColor) + LightAll(ts, NoColor)
  }

  /** The two marker buttons of the current track: its column on the top row
      and its row on the right column. */
  function LightCurrentTrack(track: Byte): (fx: seq<Effect>)
    ensures |fx| == 2 && fx[0].Light? && fx[1].Light?
    ensures fx[0].y == GridY && fx[1].x == GridX
    ensures fx[0].color == StepColor && fx[1].color == StepColor
    ensures fx[0].x < GridX && 8 * fx[1].y + fx[0].x == track
  {
    [Light(track % GridX, GridY, StepColor), Light(GridX, track / GridY, StepColor)]
  }

  /** lightMutes: the pads of the muted tracks, ascending, in the step colour. */
  function LightMutes(mutes: seq<bool>): seq<Effect>
    requires |mutes| == GridSize
  {
    LightAll(Indices(mutes), StepColor)
  }

  /** lightTrackSteps: every step of one track, in order, in its pattern colour. */
  function LightTrackSteps(row: seq<Byte>): (fx: seq<Effect>)
    requires |row| == GridSize
    ensures |fx| == GridSize
  {
    seq(GridSize, i requires 0 <= i < GridSize => LightStep(i, CellColor(row[i])))
  }

  /** The redraw after a mode switch or a track selection: reset the pad,
      light the current-track markers, then draw the steps of the current
      track (Pattern) or the mutes (Mutes). Pattern mode indexes the pattern
      by the current track, which panics when the track is past 63. */
  function Redraw(s: State): (e: Emitted)
    requires Valid(s)
    ensures e.fault.None? <==> s.mode == Mutes || s.track < GridSize
    ensures e.fault.Some? ==> e.fault == Some(IndexOutOfRange)
    ensures |e.effects| >= 3 && e.effects[0] == Reset && e.effects[1..3] == LightCurrentTrack(s.track)
    ensures s.mode == Pattern && s.track < GridSize ==> e.effects[3..] == LightTrackSteps(s.tracks[s.track])
    ensures s.mode == Mutes ==> e.effects[3..] == LightMutes(s.mutes)
    ensures e.fault.Some? ==> |e.effects| == 3
  {
    var head := [Reset] + LightCurrentTrack(s.track);
    match s.mode
    case Pattern =>
      if s.track < GridSize then Emitted(head + LightTrackSteps(s.tracks[s.track]), None)
      else Emitted(head, Some(IndexOutOfRange))
    case Mutes => Emitted(head + LightMutes(s.mutes), None)
  }

  /** A button of the top row or of the right column. */
  predicate IsMeta(h: Hit) {
    h.x == GridX || h.y == GridY
  }

  /** The track a meta button selects. A top-row hit replaces the column of
      the current track, a right-column hit its row; uint8 arithmetic wraps. */
  function SelectTrack(track: Byte, h: Hit): Byte
    requires IsMeta(h)
  {
    if h.y == GridY then
      var curX := track % GridX;
      if curX == h.x then track else ToByte(h.x + track - curX)
    else
      var curY := track / GridY;
      if curY == h.y then track else ToByte(h.y * GridY + track % GridX)
  }

  /** setCurrentTrackFrom: the new current track, or an error for a hit that
      is not on the top row or the right column. */
  function SetCurrentTrackFrom(track: Byte, h: Hit): (r: Result<Byte, Fault>)
    ensures r.Err? <==> !IsMeta(h)
    ensures r.Err? ==> r.error == NotTrackSelection
    ensures h.y == GridY && h.x < GridX ==>
              r.Ok? && r.value % GridX == h.x && r.value / GridX == track / GridX
    ensures h.x == GridX && h.y < GridY ==>
              r.Ok? && r.value / GridX == h.y && r.value % GridX == track % GridX
    ensures h.y == GridY && h.x == track % GridX ==> r == Ok(track)
    ensures h.x == GridX && h.y != GridY && h.y == track / GridY ==> r == Ok(track)
    ensures h == Hit(GridX, GridY) ==> r == Ok(ToByte(GridX * (track / GridX + 1)))
    ensures (r.Ok? && track < GridSize && (h.y == GridY ==> h.x < GridX) && (h.x == GridX ==> h.y < GridY))
              ==> r.value < GridSize
  {
    if IsMeta(h) then Ok(SelectTrack(track, h)) else Err(NotTrackSelection)
  }

  /** toggle (Pattern mode): flips the step of the current track between 0
      and 1 and recolours its pad. The pattern is indexed by the current
      track, which panics when the track is past 63. */
  function Toggle(s: State, h: Hit): (o: Outcome)
    requires Valid(s) && OnGrid(h)
    ensures o.fault.Some? <==> s.track >= GridSize
    ensures o.fault.Some? ==> o.fault == Some(IndexOutOfRange) && o.state == s && o.effects == []
    ensures o.fault.None? ==>
              var k := HitToStep(h);
              var v := if s.tracks[s.track][k] == 0 then 1 else 0;
              && Valid(o.state)
              && o.state.(tracks := s.tracks) == s
              && o.state.tracks[s.track][k] == v
              && (forall t, i :: 0 <= t < GridSize && 0 <= i < GridSize && (t != s.track || i != k) ==>
                    o.state.tracks[t][i] == s.tracks[t][i])
              && o.effects == [Light(h.x, h.y, CellColor(v))]
  {
    if s.track >= GridSize then Outcome(s, [], Some(IndexOutOfRange))
    else
      var k := HitToStep(h);
      var row: seq<Byte> := s.tracks[s.track];
      var v: Byte := if row[k] == 0 then 1 else 0;
      var color := if row[k] == 0 then StepColor else NoColor;
      Outcome(s.(tracks := s.tracks[s.track := row[k := v]]), [Light(h.x, h.y, color)], None)
  }

  /** toggleMuteFrom (Mutes mode): the pad stands for a track; its mute flag
      is flipped and the pad shows the step colour exactly when it is muted. */
  function ToggleMute(s: State, h: Hit): (o: Outcome)
    requires Valid(s) && OnGrid(h)
    ensures o.fault.None? && Valid(o.state)
    ensures o.state.(mutes := s.mutes) == s
    ensures o.state.mutes[HitToStep(h)] == !s.mutes[HitToStep(h)]
    ensures forall t :: 0 <= t < GridSize && t != HitToStep(h) ==> o.state.mutes[t] == s.mutes[t]
    ensures o.effects == [Light(h.x, h.y, if o.state.mutes[HitToStep(h)] then StepColor else NoColor)]
  {
    var k := HitToStep(h);
    if s.mutes[k] then Outcome(s.(mutes := s.mutes[k := false]), [Light(h.x, h.y, NoColor)], None)
    else Outcome(s.(mutes := s.mutes[k := true]), [Light(h.x, h.y, StepColor)], None)
  }

  /** The divisors of the named clock resolutions. */
  const ResolutionMap: map<string, int> := map["16th" := 6, "32nd" := 3, "96th" := 1]

  /** SetResolution: the divisor of a known resolution name, or an error;
      on an error the caller keeps its state. */
  function SetResolution(s: State, name: string): (r: Result<State, Fault>)
    requires Valid(s)
    ensures r.Ok? <==> name == "16th" || name == "32nd" || name == "96th"
    ensures r.Err? ==> r.error == UnrecognizedResolution(name)
    ensures name == "16th" ==> r == Ok(s.(stepSkip := 6))
    ensures name == "32nd" ==> r == Ok(s.(stepSkip := 3))
    ensures name == "96th" ==> r == Ok(s.(stepSkip := 1))
    ensures r.Ok? ==> Valid(r.value)
  {
    if name in ResolutionMap then Ok(s.(stepSkip := ResolutionMap[name])) else Err(UnrecognizedResolution(name))
  }

  /** The events one iteration of the main loop waits for. */
  datatype Event =
    | Press(hit: Hit)       // a hit from the pad
    | PressFailed           // a hit carrying a transport error
    | Pulse(count: Int32)   // a clock pulse
    | ModeChange(code: int) // a SetMode request

  /** What the hit stream may carry: coordinates in [0, 8]. */
  predicate WellFormed(e: Event) {
    e.Press? ==> e.hit.x <= GridX && e.hit.y <= GridY
  }

  /** A pulse: advance, then in Pattern mode move the position light and in
      Mutes mode flash the unmuted firing tracks, then invoke the triggers. */
  function HandlePulse(s: State, count: Int32, triggers: seq<Trigger>): (o: Outcome)
    requires Valid(s)
    ensures o.state.(step := s.step, prevStep := s.prevStep) == s
    ensures o.fault.None? ==> Valid(o.state)
    ensures !Advance(s, count).moved ==> o == Outcome(s, [], None)
    ensures
      var s1 := Advance(s, count).state;
      Advance(s, count).moved && s.mode == Pattern && s.track < GridSize && s1.step < GridSize ==>
        var d := InvokeTriggers(s1.tracks, s1.step, triggers);
        o == Outcome(s1, AdvanceLights(s1) + d.effects, d.fault)
    ensures Advance(s, count).moved && s.mode == Pattern && s.track >= GridSize ==>
              o == Outcome(Advance(s, count).state, [], Some(IndexOutOfRange))
    ensures
      var s1 := Advance(s, count).state;
      Advance(s, count).moved && s.mode == Mutes && s1.step < GridSize ==>
        var d := InvokeTriggers(s1.tracks, s1.step, triggers);
        o == Outcome(s1, FlashStepTriggers(s1.tracks, s1.mutes, s1.step) + d.effects, d.fault)
    ensures Advance(s, count).moved && Advance(s, count).state.step >= GridSize ==>
              o.fault == Some(IndexOutOfRange)
  {
    var a := Advance(s, count);
    var s1 := a.state;
    if !a.moved then Outcome(s1, [], None)
    else
      match s.mode
      case Pattern =>
        // advanceLights reads tracks[track][prevStep] before anything else
        if s1.track >= GridSize then Outcome(s1, [], Some(IndexOutOfRange))
        else
          var lights := AdvanceLights(s1);
          // invokeTriggers reads every track at the step
          if s1.step >= GridSize then Outcome(s1, lights, Some(IndexOutOfRange))
          else
            var d := InvokeTriggers(s1.tracks, s1.step, triggers);
            Outcome(s1, lights + d.effects, d.fault)
      case Mutes =>
        // flashStepTriggers panics at the first unmuted track, lighting
        // nothing; if every track is muted invokeTriggers panics instead
        if s1.step >= GridSize then Outcome(s1, [], Some(IndexOutOfRange))
        else
          var flash := FlashStepTriggers(s1.tracks, s1.mutes, s1.step);
          var d := InvokeTriggers(s1.tracks, s1.step, triggers);
          Outcome(s1, flash + d.effects, d.fault)
  }

  /** A hit from the pad. A meta button selects a track and redraws, whether
      or not the track changed; a playable pad toggles a step (Pattern) or a
      mute (Mutes). */
  function HandlePress(s: State, h: Hit): (o: Outcome)
    requires Valid(s) && h.x <= GridX && h.y <= GridY
    ensures o.state.(tracks := s.tracks, mutes := s.mutes, track := s.track) == s
    ensures o.fault.None? ==> Valid(o.state)
    ensures IsMeta(h) ==>
              var s1 := s.(track := SetCurrentTrackFrom(s.track, h).value);
              o == Outcome(s1, Redraw(s1).effects, Redraw(s1).fault)
    ensures !IsMeta(h) && s.mode == Pattern ==> OnGrid(h) && o == Toggle(s, h)
    ensures !IsMeta(h) && s.mode == Mutes ==> OnGrid(h) && o == ToggleMute(s, h)
  {
    match SetCurrentTrackFrom(s.track, h)
    case Ok(track) =>
      var s1 := s.(track := track);
      var d := Redraw(s1);
      Outcome(s1, d.effects, d.fault)
    case Err(_) =>
      match s.mode
      case Pattern => Toggle(s, h)
      case Mutes => ToggleMute(s, h)
  }

  /** One iteration of the main loop (the body of loopPattern or loopMutes,
      with the mode switch of Main). */
  function Handle(s: State, e: Event, triggers: seq<Trigger>): (o: Outcome)
    requires Valid(s) && WellFormed(e)
    ensures o.fault.None? ==> Valid(o.state)
    ensures o.state.stepSkip == s.stepSkip
    ensures o.state.tracks != s.tracks ==> e.Press? && s.mode == Pattern && OnGrid(e.hit)
    ensures o.state.mutes != s.mutes ==> e.Press? && s.mode == Mutes && OnGrid(e.hit)
    ensures o.state.mode != s.mode ==> e.ModeChange?
    ensures e.PressFailed? ==> o == Outcome(s, [], Some(HitFailed))
    ensures e.Press? ==> o == HandlePress(s, e.hit)
    ensures e.Pulse? ==> o == HandlePulse(s, e.count, triggers)
    ensures e.ModeChange? && (e.code == 0 || e.code == 1) ==>
              var s1 := s.(mode := if e.code == 0 then Pattern else Mutes);
              o == Outcome(s1, Redraw(s1).effects, Redraw(s1).fault)
    ensures e.ModeChange? && e.code != 0 && e.code != 1 ==> o == Outcome(s, [], Some(UnrecognizedMode(e.code)))
  {
    match e
    case PressFailed => Outcome(s, [], Some(HitFailed))
    case Press(h) => HandlePress(s, h)
    case Pulse(count) => HandlePulse(s, count, triggers)
    case ModeChange(code) =>
      if code == 0 || code == 1 then
        var s1 := s.(mode := if code == 0 then Pattern else Mutes);
        var d := Redraw(s1);
        Outcome(s1, d.effects, d.fault)
      else Outcome(s, [], Some(UnrecognizedMode(code)))
  }

  /** Main before its first event: the current-track markers, then the entry
      into Pattern mode. */
  function Boot(s: State): (e: Emitted)
    requires Valid(s) && s.mode == Pattern
    ensures |e.effects| >= 2 && e.effects[..2] == LightCurrentTrack(s.track)
    ensures e.effects[2..] == Redraw(s).effects && e.fault == Redraw(s).fault
    ensures e.fault.None? <==> s.track < GridSize
  {
    var d := Redraw(s);
    Emitted(LightCurrentTrack(s.track) + d.effects, d.fault)
  }

  /** The main loop over a finite run of events: it stops at the first fault. */
  function Run(s: State, events: seq<Event>, triggers: seq<Trigger>): (o: Outcome)
    requires Valid(s) && forall i :: 0 <= i < |events| ==> WellFormed(events[i])
    ensures o.fault.None? ==> Valid(o.state)
    ensures o.state.stepSkip == s.stepSkip
    decreases |events|
  {
    if |events| == 0 then Outcome(s, [], None)
    else
      var o := Handle(s, events[0], triggers);
      if o.fault.Some? then o
      else
        var rest := Run(o.state, events[1..], triggers);
        Outcome(rest.state, o.effects + rest.effects, rest.fault)
  }
}

=== FILE: sequencer_properties.dfy ===
/** Properties of the sequencer model: the grid/step bijection, what the
    redraw helpers draw, the toggles as involutions, the firing list, the
    two clock-division regimes and the mode round trip. */
module SequencerProperties {
  import opened GoValues
  import opened Sequencer

  /** hitToStep and stepToHit are inverse bijections between the playable
      8x8 pads and the steps 0..63. */
  lemma GridBijection(h: Hit, s: Byte)
    ensures OnGrid(h) ==> StepToHit(HitToStep(h)) == h
    ensures s < GridSize ==> OnGrid(StepToHit(s)) && HitToStep(StepToHit(s)) == s
  {
  }

  /** Two playable pads stand for the same step only if they are the same pad. */
  lemma HitToStepInjective(h1: Hit, h2: Hit)
    requires OnGrid(h1) && OnGrid(h2) && HitToStep(h1) == HitToStep(h2)
    ensures h1 == h2
  {
    GridBijection(h1, 0);
    GridBijection(h2, 0);
  }

  /** Indices lists exactly the set flags, in ascending order. */
  lemma IndicesExact(flags: seq<bool>, k: int)
    requires |flags| == GridSize
    ensures 0 <= k < GridSize ==> (flags[k] <==> k in Indices(flags))
    ensures forall i, j :: 0 <= i < j < |Indices(flags)| ==> Indices(flags)[i] < Indices(flags)[j]
  {
    var ts := Indices(flags);
    if 0 <= k < GridSize && k in ts {
      var i :| 0 <= i < |ts| && ts[i] == k;
      assert flags[ts[i]];
    }
  }

  /** The firing list holds exactly the tracks whose value at the step is
      positive, each once, in ascending track order, with that value; the
      mutes play no part. */
  lemma FiringExact(tracks: seq<seq<Byte>>, step: nat, k: int)
    requires ValidPattern(tracks) && step < GridSize
    ensures forall i :: 0 <= i < |Firing(tracks, step)| ==>
              var tr := Firing(tracks, step)[i];
              tr.track < GridSize && tr.value > 0 && tr.value == tracks[tr.track][step]
    ensures forall i, j :: 0 <= i < j < |Firing(tracks, step)| ==>
              Firing(tracks, step)[i].track < Firing(tracks, step)[j].track
    ensures 0 <= k < GridSize ==> (tracks[k][step] > 0 <==> Trig(k, tracks[k][step]) in Firing(tracks, step))
  {
    var flags := seq(GridSize, t requires 0 <= t < GridSize => tracks[t][step] > 0);
    var ts := Indices(flags);
    var trigs := Firing(tracks, step);
    assert |trigs| == |ts|;
    forall i | 0 <= i < |trigs|
      ensures trigs[i] == Trig(ts[i], tracks[ts[i]][step]) && flags[ts[i]]
    {
    }
    if 0 <= k < GridSize {
      if tracks[k][step] > 0 {
        assert flags[k];
        var i :| 0 <= i < |ts| && ts[i] == k;
        assert trigs[i] == Trig(k, tracks[k][step]);
      }
    }
  }

  /** lightMutes lights a pad exactly when it stands for a muted track, and
      always in the step colour. */
  lemma LightMutesExact(mutes: seq<bool>, h: Hit, c: Color)
    requires |mutes| == GridSize
    ensures Light(h.x, h.y, c) in LightMutes(mutes) <==> OnGrid(h) && mutes[HitToStep(h)] && c == StepColor
  {
    var ts := Indices(mutes);
    var fx := LightMutes(mutes);
    if Light(h.x, h.y, c) in fx {
      var i :| 0 <= i < |fx| && fx[i] == Light(h.x, h.y, c);
      assert fx[i] == LightStep(ts[i], StepColor);
      IndicesExact(mutes, ts[i]);
      GridBijection(h, ts[i]);
    }
    if OnGrid(h) && mutes[HitToStep(h)] && c == StepColor {
      var k := HitToStep(h);
      IndicesExact(mutes, k);
      var i :| 0 <= i < |ts| && ts[i] == k;
      GridBijection(h, k);
      assert fx[i] == Light(h.x, h.y, c);
    }
  }

  /** lightTrackSteps draws every playable pad exactly once, in the colour
      of its step's value. */
  lemma LightTrackStepsExact(row: seq<Byte>, h: Hit)
    requires |row| == GridSize && OnGrid(h)
    ensures LightTrackSteps(row)[HitToStep(h)] == Light(h.x, h.y, CellColor(row[HitToStep(h)]))
    ensures forall i, c :: 0 <= i < GridSize && i != HitToStep(h) ==> LightTrackSteps(row)[i] != Light(h.x, h.y, c)
  {
    GridBijection(h, HitToStep(h));
    forall i, c | 0 <= i < GridSize && i != HitToStep(h)
      ensures LightTrackSteps(row)[i] != Light(h.x, h.y, c)
    {
      GridBijection(StepToHit(i), i);
    }
  }

  /** Lighting a list of steps in one colour and then in another lights the
      same pads twice, in the same order. */
  lemma LightAllTwice(ts: seq<Byte>, on: Color, off: Color)
    ensures
      var fx := LightAll(ts, on) + LightAll(ts, off);
      && |fx| == 2 * |ts|
      && forall i :: 0 <= i < |ts| ==>
           fx[i].Light? && fx[i].color == on && fx[|ts| + i] == fx[i].(color := off)
  {
    var a, b := LightAll(ts, on), LightAll(ts, off);
    forall i | 0 <= i < |ts|
      ensures (a + b)[i] == a[i] && (a + b)[|ts| + i] == b[i]
    {
    }
  }

  /** flashStepTriggers switches off what it lit: its second half repeats
      the first, in the same order, with the colour off. */
  lemma FlashPairs(tracks: seq<seq<Byte>>, mutes: seq<bool>, step: Byte)
    requires ValidPattern(tracks) && |mutes| == GridSize && step < GridSize
    ensures
      var fx := FlashStepTriggers(tracks, mutes, step);
      var n := |fx| / 2;
      && |fx| % 2 == 0
      && forall i :: 0 <= i < n ==>
           fx[i].Light? && fx[i].color == PosColor && fx[n + i] == fx[i].(color := NoColor)
  {
    var ts := FlashTracks(tracks, mutes, step);
    LightAllTwice(ts, PosColor, NoColor);
    assert FlashStepTriggers(tracks, mutes, step) == LightAll(ts, PosColor) + LightAll(ts, NoColor);
  }

  /** flashStepTriggers lights exactly the pads of the unmuted firing
      tracks in the position colour. */
  lemma FlashExact(tracks: seq<seq<Byte>>, mutes: seq<bool>, step: Byte, k: int)
    requires ValidPattern(tracks) && |mutes| == GridSize && step < GridSize
    ensures
      var fx := FlashStepTriggers(tracks, mutes, step);
      0 <= k < GridSize ==>
        (!mutes[k] && tracks[k][step] > 0 <==> LightStep(k, PosColor) in fx[..|fx| / 2])
  {
    var flags := seq(GridSize, t requires 0 <= t < GridSize => !mutes[t] && tracks[t][step] > 0);
    var ts := Indices(flags);
    var on := LightAll(ts, PosColor);
    var fx := FlashStepTriggers(tracks, mutes, step);
    assert fx == on + LightAll(ts, NoColor);
    assert fx[..|fx| / 2] == on;
    if 0 <= k < GridSize {
      IndicesExact(flags, k);
      if flags[k] {
        var i :| 0 <= i < |ts| && ts[i] == k;
        assert on[i] == LightStep(k, PosColor);
      }
      if LightStep(k, PosColor) in on {
        var i :| 0 <= i < |on| && on[i] == LightStep(k, PosColor);
        GridBijection(StepToHit(k), k);
        GridBijection(StepToHit(ts[i]), ts[i]);
        assert ts[i] == k;
      }
    }
  }

  /** After a toggle the pad shows what a full redraw of the track would show there. */
  lemma ToggleShowsPattern(s: State, h: Hit)
    requires Valid(s) && OnGrid(h) && s.track < GridSize
    ensures
      var o := Toggle(s, h);
      o.effects == [LightTrackSteps(o.state.tracks[s.track])[HitToStep(h)]]
  {
    var o := Toggle(s, h);
    LightTrackStepsExact(o.state.tracks[s.track], h);
  }

  /** Toggling the same pad twice restores a 0/1 step and re-emits its
      original colour; the mutes are never touched. */
  lemma ToggleTwice(s: State, h: Hit)
    requires Valid(s) && OnGrid(h) && s.track < GridSize
    requires s.tracks[s.track][HitToStep(h)] <= 1
    ensures
      var o1 := Toggle(s, h);
      var o2 := Toggle(o1.state, h);
      && o2.state == s
      && o1.state.mutes == s.mutes
      && o2.effects == [Light(h.x, h.y, CellColor(s.tracks[s.track][HitToStep(h)]))]
  {
    var o1 := Toggle(s, h);
    var o2 := Toggle(o1.state, h);
    var k := HitToStep(h);
    assert o2.state.tracks[s.track] == s.tracks[s.track];
    assert o2.state.tracks == s.tracks;
  }

  /** A value other than 0 and 1 is not restored by two toggles: it becomes 1. */
  lemma ToggleTwiceNormalises(s: State, h: Hit)
    requires Valid(s) && OnGrid(h) && s.track < GridSize
    requires s.tracks[s.track][HitToStep(h)] > 1
    ensures Toggle(Toggle(s, h).state, h).state.tracks[s.track][HitToStep(h)] == 1
  {
  }

  /** Toggling a mute twice restores it and re-emits its original colour;
      the pattern is never touched. */
  lemma ToggleMuteTwice(s: State, h: Hit)
    requires Valid(s) && OnGrid(h)
    ensures
      var o1 := ToggleMute(s, h);
      var o2 := ToggleMute(o1.state, h);
      && o2.state == s
      && o1.state.tracks == s.tracks
      && o2.effects == [Light(h.x, h.y, if s.mutes[HitToStep(h)] then StepColor else NoColor)]
  {
    var o1 := ToggleMute(s, h);
    var o2 := ToggleMute(o1.state, h);
    assert o2.state.mutes == s.mutes;
  }

  /** The mutes shown after a mute toggle agree with a full redraw of the
      mutes: the pad is lit exactly when the redraw lights it, and after an
      unmute the redraw leaves it unlit. */
  lemma ToggleMuteShowsMutes(s: State, h: Hit)
    requires Valid(s) && OnGrid(h)
    ensures
      var o := ToggleMute(s, h);
      Light(h.x, h.y, StepColor) in LightMutes(o.state.mutes) <==> o.effects[0].color == StepColor
    ensures
      var o := ToggleMute(s, h);
      o.effects[0].color == NoColor ==> forall c :: Light(h.x, h.y, c) !in LightMutes(o.state.mutes)
  {
    var o := ToggleMute(s, h);
    forall c
      ensures Light(h.x, h.y, c) in LightMutes(o.state.mutes) <==>
                o.state.mutes[HitToStep(h)] && c == StepColor
    {
      LightMutesExact(o.state.mutes, h, c);
    }
  }

  /** On a real move the cursor's new pad shows the position colour and the
      pad it left gets back what a redraw of the track shows there. */
  lemma AdvanceLightsRestores(s: State)
    requires Valid(s) && s.track < GridSize && s.prevStep != s.step
    ensures
      var fx := AdvanceLights(s);
      var prev := StepToHit(s.prevStep);
      && |fx| == 2
      && fx[0] == Light(StepToHit(s.step).x, StepToHit(s.step).y, PosColor)
      && fx[1] == LightTrackSteps(s.tracks[s.track])[s.prevStep]
      && fx[1].x == prev.x && fx[1].y == prev.y
  {
  }

  /** Before any resolution is set the sequencer counts pulses directly:
      every non-negative pulse moves the step to the count modulo 64. */
  lemma NewSequencerCountsDirectly(count: Int32)
    requires count >= 0
    ensures Advance(NewSequencer(), count).moved
    ensures Advance(NewSequencer(), count).state.step == count % GridSize
  {
  }

  /** In direct-count mode a pulse in Pattern mode lights the pad of step
      `count mod 64` in row-major order, or (0, 0) when the cursor did not
      move; so counts 0..63 sweep the grid and count 64 lights (0, 0) again. */
  lemma DirectCountLightsPosition(s: State, count: Int32, triggers: seq<Trigger>)
    requires Valid(s) && s.mode == Pattern && s.track < GridSize && s.stepSkip <= 1 && count >= 0
    ensures
      var o := HandlePulse(s, count, triggers);
      var k := count % GridSize;
      && o.state.step == k
      && |o.effects| >= 1
      && o.effects[0] == (if k == s.step then Light(0, 0, PosColor) else Light(k % 8, k / 8, PosColor))
  {
  }

  /** At the 16th resolution only every sixth pulse moves the cursor, by
      exactly one step. */
  lemma SixteenthAdvancesEverySixth(s: State, count: Int32)
    requires Valid(s)
    ensures
      var s1 := SetResolution(s, "16th").value;
      var a := Advance(s1, count);
      && (a.moved <==> count % 6 == 0)
      && (a.moved ==> a.state.step == (s.step + 1) % GridSize && a.state.prevStep == s.step)
      && (!a.moved ==> a.state == s1)
  {
  }

  /** A step toggled on in the current track is reported to every trigger
      called when the cursor reaches it (here in direct-count mode, on the
      pulse whose count lands on that step). */
  lemma ToggledStepFires(s: State, h: Hit, count: Int32, triggers: seq<Trigger>)
    requires Valid(s) && s.mode == Pattern && s.track < GridSize && OnGrid(h)
    requires s.tracks[s.track][HitToStep(h)] == 0
    requires s.stepSkip <= 1 && count >= 0 && count % GridSize == HitToStep(h)
    ensures
      var o := HandlePulse(Toggle(s, h).state, count, triggers);
      forall e :: e in o.effects && e.Fire? ==> e.step == HitToStep(h) && Trig(s.track, 1) in e.trigs
  {
    var s2 := Toggle(s, h).state;
    var s3 := Advance(s2, count).state;
    var k := HitToStep(h);
    assert s3.tracks[s.track][k] == 1;
    FiringExact(s3.tracks, k, s.track);
    var o := HandlePulse(s2, count, triggers);
    var lights := AdvanceLights(s3);
    var d := InvokeTriggers(s3.tracks, s3.step, triggers);
    assert o.effects == lights + d.effects;
    forall e | e in o.effects && e.Fire?
      ensures e.step == k && Trig(s.track, 1) in e.trigs
    {
      assert e !in lights;
      var i :| 0 <= i < |d.effects| && d.effects[i] == e;
    }
  }

  /** Switching to Mutes and back to Pattern leaves the pattern, the mutes
      and the cursor as they were and ends with the Pattern-mode redraw. */
  lemma ModeRoundTrip(s: State, triggers: seq<Trigger>)
    requires Valid(s) && s.mode == Pattern && s.track < GridSize
    ensures
      var o1 := Handle(s, ModeChange(1), triggers);
      var o2 := Handle(o1.state, ModeChange(0), triggers);
      && o1.fault.None? && o1.state.mode == Mutes
      && o2.fault.None? && o2.state == s
      && o2.effects == Redraw(s).effects
  {
  }

  /** Selecting the track that is already current changes nothing but still
      redraws the pad. */
  lemma ReselectRedraws(s: State)
    requires Valid(s)
    ensures
      HandlePress(s, Hit(s.track % GridX, GridY)) == Outcome(s, Redraw(s).effects, Redraw(s).fault)
  {
  }

  /** The corner button (8, 8) takes the top-row branch with x = 8: it
      selects the first track of the next row. From any track of the last
      row that is track 64, and in Pattern mode the redraw then indexes the
      pattern out of range. */
  lemma CornerHitLeavesPattern(s: State)
    requires Valid(s) && s.track < GridSize
    ensures SetCurrentTrackFrom(s.track, Hit(GridX, GridY)) == Ok(8 * (s.track / 8 + 1))
    ensures HandlePress(s, Hit(GridX, GridY)).state.track >= GridSize <==> s.track >= 56
    ensures s.mode == Pattern ==> (HandlePress(s, Hit(GridX, GridY)).fault == Some(IndexOutOfRange) <==> s.track >= 56)
  {
  }

  /** A run only stops early at a fault; between events the state stays
      well formed and no event but a pad press edits the pattern or mutes. */
  lemma {:induction false} RunKeepsPatternWithoutPresses(s: State, events: seq<Event>, triggers: seq<Trigger>)
    requires Valid(s) && forall i :: 0 <= i < |events| ==> WellFormed(events[i]) && !events[i].Press?
    ensures Run(s, events, triggers).state.tracks == s.tracks
    ensures Run(s, events, triggers).state.mutes == s.mutes
    decreases |events|
  {
    if |events| > 0 {
      var o := Handle(s, events[0], triggers);
      if o.fault.None? {
        RunKeepsPatternWithoutPresses(o.state, events[1..], triggers);
      }
    }
  }
}
